=== FILE: README.md ===
# telephony-daemon: plugin loading and state dump, modelled in Dafny

The telephony daemon loads its functionality from plugin modules found in a
directory. This project models two of its parts as pure functions over
abstract inputs and proves properties of them.

- **Plugin loading** (`src/main.c`). `load_plugins` walks the directory. It
  keeps only names that do not start with `lib` and do end with `.so`. Each
  such file goes through a fixed chain:
  - the file does not open: skip it;
  - test-load mode is on: close the file, do not register it;
  - the file has no `plugin_define_desc`: skip it;
  - its `load()` returns false: skip it;
  - otherwise: register it.

  After the walk, one pass calls `init` on every registered plugin that has
  one. The model also covers the `SIGUSR1` handler and the control flow of
  `main` once options are parsed: plugin path, help, test-load, run, free,
  exit code.
- **State dump** (`src/monitor.c`). `monitor_server_state` logs the registry
  in four sections: Plugins, Storages, Communicators, Modems. It is modelled
  as a function from a registry snapshot to a sequence of log lines.

The modules are:

- `Optional`: the `Option` type.
- `Sequences`: counting and concatenation facts.
- `Registry`: the server's plugin, storage and communicator lists.
- `Loader`: the name filter, the decision chain for one entry, and the
  events that entry produces.
- `Discovery`: the directory walk, the `init` pass, and `load_plugins`.
- `Monitor`: the dump.
- `Daemon`: option scanning, `main` and the signal handler.
- `Scenario`: one worked directory.

The outside world enters only as data:

- A directory is a `seq<Entry>`. Each entry holds a name and what the
  dynamic loader would do with the file: whether it opens, and the
  descriptor it exports, if any. A descriptor's `load` and `init` are either
  absent or the boolean they return. An `init` also carries its effect on
  the registry: the user data it links to its own record, and the storages
  and communicators it registers.
- `load_plugins` reports what it does as a trace of `Event`s: open, symbol
  lookup, `load` call, close, register, `init` call.
- A registered plugin's identity is its position in the plugin list. Its
  `%p` address in the dump is that identity.

Behaviour of the code that the model keeps as written:

- `main` returns `EXIT_SUCCESS` on every path. This includes a failed
  `tcore_server_new` and a plugin directory that cannot be opened
  (src/main.c:201-228).
- `_server` is set once the server exists and is never set back to NULL
  (src/main.c:205, 225). After `tcore_server_free` it still points at the
  released server, so a SIGUSR1 arriving then reads freed memory. The model
  keeps `_server` as one of three states: unset, live, or freed.
- Test-load mode closes each file as soon as it opens, before the
  descriptor lookup (src/main.c:69-74). So no `load` callback runs in that
  mode, and no descriptor is validated.
- The `init` pass runs in test-load mode as well (src/main.c:99-117). It
  goes over whatever the registry already holds, which is nothing when it
  is started from `main`.
- A descriptor's priority and version are never read.

## Model

| member | source | states |
|---|---|---|
| Registry.NewPlugin | src/main.c:93 | In a registry whose identities are positions, the record created for a loaded module has an identity that no listed record has. |
| Registry.AddNewPluginKeepsWellFormed | src/main.c:93-94 | Appending that new record to a registry whose identities are positions keeps them positions. |
| Registry.AddPlugin | src/main.c:94 | Appending puts the record last and keeps every earlier record in place. Storages and communicators are untouched. |
| Registry.LinkUserData | src/main.c:114 | What an `init` may do to its own record: that record gets the new user data, and no other record, storage or communicator changes. Identities stay positions. |
| Registry.AddObjects | src/main.c:114 | What an `init` may register: the new storages and communicators follow the existing ones, which keep their places. The plugin list is untouched. |
| Loader.IsCandidate | src/main.c:57-58 | A directory entry is tried only when its name does not start with `lib` and does end with `.so`. |
| Loader.CandidateShape | src/main.c:57-58 | An entry is tried exactly when its name is some stem followed by `.so` and is not `lib` followed by anything. |
| Loader.BuildFilenameShape | src/main.c:60 | The path opened for an entry starts with the directory and ends with the entry's name. At most one separator is added between them. |
| Loader.Decide | src/main.c:76-94 | An accepted entry is registered with the descriptor its file exports. |
| Loader.DecisionChain | src/main.c:56-96 | Each outcome of the chain, stated as a condition on the entry. An entry is accepted exactly when all of these hold: it passes the filter, it opens, test-load is off, it exports the descriptor, and its `load` is absent or returns true. Each skip reason is characterised both ways. |
| Loader.EntryEvents | src/main.c:62-91 | One entry never produces an `init` call. In test-load mode it produces only opens and closes. |
| Loader.HandleClosedOrRegistered | src/main.c:62-97 | Every opened handle ends in exactly one of two ways: closed, or handed to the registry. The last event is a registration exactly when the chain accepts the entry. Nothing is closed or registered earlier. |
| Loader.EntryEventsOrder | src/main.c:56-91 | A filtered entry produces no events at all, and every event names the entry's joined path. The open attempt comes first and only once. `load` is called at most once: right after the symbol lookup, and only when the file opened, the descriptor resolved and `load` exists. |
| Discovery.AcceptedIndices | src/main.c:56-98 | The accepted entries are exactly the listed positions, in strictly increasing order. |
| Discovery.RegistrationsGrow | src/main.c:93-94 | An accepted entry appends one record at the next position. The record carries the entry's descriptor and path. |
| Discovery.RegistrationsKeep | src/main.c:62-91 | An entry the chain skips leaves the appended records as they were. |
| Discovery.RegistrationsHaveDescriptors | src/main.c:76-94 | Every appended record is non-NULL and has a descriptor. |
| Discovery.RegistrationsKeepIdsPositions | src/main.c:93-94 | If identities were positions before the walk, they still are after it. |
| Discovery.TestLoadAcceptsNothing | src/main.c:69-74 | In test-load mode no entry is accepted. |
| Discovery.TestLoadRegistersNothing | src/main.c:69-74 | In test-load mode the walk appends no record. |
| Discovery.WalkEvents | src/main.c:56-98 | The walk makes no `init` call. In test-load mode it only opens and closes files. |
| Discovery.WalkOpensOnlyCandidates | src/main.c:56-62 | Every file the walk tries to open is the joined path of an entry that passes the name filter. |
| Discovery.InitEvents | src/main.c:101-117 | The second pass makes only `init` calls, at most one per list entry. |
| Discovery.Initialized | src/main.c:114 | The second pass changes a record only through its own `init`, and only in its user data. Identity, descriptor and path stay. A record without `init` is left as it was. |
| Discovery.AfterInitKeepsRecords | src/main.c:101-117 | The second pass keeps the list's length, its NULL entries and every record's descriptor. If identities were positions, they still are. |
| Discovery.NoInitNoObjects | src/main.c:108-112 | A list in which no record has `init` gains no storage and no communicator from the second pass. |
| Discovery.VisitRecord | src/main.c:103-116 | The second pass skips a NULL record, a record without a descriptor and a descriptor without `init`, leaving everything as it was. It calls `init` exactly for the other records, and reports whether it called and what `init` returned. |
| Discovery.RunInit | src/main.c:114-116 | One `init` call returns what the module's `init` returns. It links that module's user data to its record and appends that module's storages and communicators. Nothing else changes. |
| Discovery.InitOncePerPlugin | src/main.c:101-117 | When identities are positions, each record gets exactly one `init` call if it has a descriptor with `init`. NULL records, records without a descriptor, and descriptors without `init` get none. |
| Discovery.InitPass | src/main.c:101-117 | The loop calls `init` exactly once for each record that has one and never for the others. It collects exactly the positions whose `init` failed, and those records stay in the list. It makes the same calls as the reference pass. Each record ends as its own `init` left it. The registered storages and communicators are those of every `init`, appended in list order. |
| Discovery.PhasesInOrder | src/main.c:56-117 | When the walk makes no `init` call and the second pass makes only `init` calls, every registration precedes every `init` call. |
| Discovery.Walk | src/main.c:56-99 | The loop appends exactly one record per accepted entry, in enumeration order. The `k`-th record takes position `base + k`. Storages and communicators are untouched. The events are the entries' events in order. |
| Discovery.LoadPlugins | src/main.c:41-120 | Returns true exactly when the directory opens. When it does not, nothing changes and nothing is called. Otherwise the plugin list is the old list plus the accepted records, each as its `init` left it. Storages and communicators are the old ones plus those each `init` registered, in list order. The events are the walk's, then the `init` calls. In test-load mode no record is added, and an empty registry stays empty. Identities stay positions. Every registration precedes every `init` call. The failed-`init` positions are exactly those whose `init` returned false. |
| Monitor.Text | src/monitor.c:56-132 | The text each dump line is logged as: the section titles, `Name: [...]`, ` - file: `, ` - addr: `, ` - parent_plugin: `, ` - userdata: ` and the blank line. |
| Monitor.HeaderTextIdentifiesSection | src/monitor.c:56-132 | A logged line reads as a section's header exactly when it is that header. No entry line and no other header has the same text, whatever names, paths and addresses the registry holds. |
| Monitor.PluginBlock | src/monitor.c:65-74 | The lines logged for one plugin record: its descriptor's name, its file, its address, its user data, then a blank line. |
| Monitor.PrintableRun | src/monitor.c:62-65 | How far the dump gets: every record before that point has a readable name, and the record at that point, if any, does not. |
| Monitor.PluginEntries | src/monitor.c:58-78 | Five lines per plugin record, in list order: name, file, addr, userdata, blank. The walk faults at the first NULL record or NULL descriptor, exactly when the list has one. The body holds no header line. |
| Monitor.StorageEntries | src/monitor.c:88-100 | Three lines per storage, in list order: name, addr, blank. |
| Monitor.StorageBlock | src/monitor.c:95-97 | The lines logged for one storage: its name, its address, then a blank line. |
| Monitor.CommunicatorBlock | src/monitor.c:117-121 | The lines logged for one communicator: its name, its address, its parent plugin, its user data, then a blank line. |
| Monitor.CommunicatorEntries | src/monitor.c:110-124 | Five lines per communicator, in list order: name, addr, parent plugin, userdata, blank. |
| Monitor.NonNullPlugins | src/monitor.c:138-142 | The non-NULL plugin entries are exactly the listed positions, in increasing order. |
| Monitor.ModemEntries | src/monitor.c:134-144 | One modem dump per non-NULL plugin entry, in list order, each naming that plugin. |
| Monitor.MonitorPlugins | src/monitor.c:50-79 | The Plugins section: its header, then no other header. It faults exactly when some entry is unprintable. Otherwise it is one line plus five per plugin, so an empty list gives the header alone. |
| Monitor.MonitorStorages | src/monitor.c:81-101 | The Storages section: its header, then three lines per storage. An empty list gives the header alone. |
| Monitor.MonitorCommunicators | src/monitor.c:103-125 | The Communicators section: its header, then five lines per communicator. An empty list gives the header alone. |
| Monitor.MonitorModems | src/monitor.c:127-145 | The Modems section: its header, then one line per non-NULL plugin entry. |
| Monitor.SectionsInOrder | src/monitor.c:147-153 | Four sections logged one after another have their headers exactly at the section boundaries, and nowhere else. |
| Monitor.ServerState | src/monitor.c:147-153 | The dump faults exactly when some plugin entry is unprintable, and then stops inside the Plugins section. Otherwise its sections come in the order Plugins, Storages, Communicators, Modems. It has the stated number of lines, with headers only at the four boundaries. |
| Monitor.EmptyRegistryDump | src/monitor.c:56-60 | With nothing registered, the dump is the four section headers and nothing else. |
| Daemon.ScanOptions | src/main.c:163-188 | Help is reported exactly when a help option is present. Without help, test-load is set exactly when a test-load option is present. |
| Daemon.PluginPath | src/main.c:190-192 | The plugin directory is the first positional argument, else `/usr/lib/telephony/plugins/`. |
| Daemon.OnSignalUsr1 | src/main.c:131-137 | While `_server` is NULL the handler does nothing. While it points at the live server, the handler dumps that server once. Once it points at a freed server, the handler reads freed memory. |
| Daemon.LoadedRegistryDumpsCleanly | src/main.c:93-117 | A registry that `load_plugins` built from an empty list can be dumped without a fault, whatever the `init` calls did. |
| Daemon.SignalDuringWalkDumpsCleanly | src/main.c:56-98 | `_server` is set before `load_plugins` runs. A SIGUSR1 part-way through the walk sees the records of the entries seen so far, and their dump cannot fault. |
| Daemon.SignalDuringInitPassDumpsCleanly | src/main.c:101-117 | A SIGUSR1 part-way through the second pass sees the visited records as their `init` left them and the rest as the walk left them. That dump cannot fault either. |
| Daemon.SignalAfterStartupDumpsCleanly | src/main.c:131-137 | A signal while such a server is live yields a complete dump that starts with the Plugins header. |
| Daemon.Listing | src/main.c:52-54 | The chosen directory as the environment lists it, or nothing when `g_dir_open` would fail. |
| Daemon.LoadedServer | src/main.c:41-120 | The registry `load_plugins` leaves in a fresh server: the accepted records as their `init` left them, plus the storages and communicators those `init` calls registered. Empty when the directory does not open. |
| Daemon.LoaderEvents | src/main.c:41-120 | The events of `load_plugins` on a fresh server: the walk's, then the `init` calls. None when the directory does not open. |
| Daemon.ServeStepsShape | src/main.c:207-225 | Once the server exists, `main` never prints the usage text. It loads once from the chosen path, runs exactly when loading succeeded without test-load, and frees the server last. |
| Daemon.Serve | src/main.c:207-225 | Once the server exists, plugins are loaded from the chosen path. The server runs only if loading succeeded and test-load is off, and it is always freed. When the directory opens, the freed registry holds exactly the accepted records as their `init` left them, plus the storages and communicators the `init` calls registered. The loader's events are the walk's, then the `init` calls. When the directory does not open, the registry stays empty and nothing is called. In test-load mode the registry stays empty and the loader only opens and closes files. |
| Daemon.Start | src/main.c:190-228 | Every path exits with `EXIT_SUCCESS`. `_server` stays unset exactly when server creation fails, and then nothing else happens. Otherwise the plugins are loaded from the first positional argument, else the default path. The registry holds what `load_plugins` built from that directory, and it dumps cleanly once `load_plugins` has returned. The server runs exactly when the directory opens and test-load is off. The steps are exactly: create, load once, run when the directory opened without test-load, free. The server is freed last, with `_server` still pointing at it, so a later SIGUSR1 reads freed memory. |
| Daemon.RunDaemon | src/main.c:163-228 | Every path exits with `EXIT_SUCCESS`. A help option prints the usage and does nothing else: no server, no loader event. Otherwise `_server` is set exactly when creation succeeds. The plugins are then loaded from the chosen path, with test-load exactly when a test-load option is given. The freed registry and the loader's events are those of `load_plugins` on that directory. The registry is empty when the directory does not open or test-load is set. The events are empty only when the directory does not open; under test-load they are only opens and closes. A failed creation does nothing further. Otherwise the steps are exactly: create, load once, run when the directory opened without test-load, free. The server runs exactly when creation succeeds, the directory opens and no test-load option is given. |
| Scenario.SampleVerdicts | src/main.c:56-91 | In the worked directory, one module is accepted, one is refused by its `load`, and the two other names are filtered out. |
| Scenario.SampleDirectory | src/main.c:56-98 | Walking the worked directory registers only the first module, with position 0, and opens both modules. Test-load opens and closes both modules and registers nothing. |

## Left out

- `dlopen`, `dlsym`, `dlclose` and `dlerror`: each entry carries its outcome instead. The handle itself is not stored in the plugin record.
- `g_dir_open` and `g_dir_read_name`: a directory is `Some(entries)` in enumeration order, or `None` when it cannot be opened.
- `getopt_long`: its result is a sequence of `Opt` values plus the positional arguments, with positionals already permuted to the end. Unknown options count as `OtherOpt` and are ignored, as in the code.
- `sigaction` set-up, signal delivery and re-entrancy: the handler is a function of the current `_server`, not an asynchronous event.
- Daemon.Serve: `tcore_server_run` is assumed to leave the plugin, storage and communicator lists as `load_plugins` left them. The registry that `Serve`, `Start` and `RunDaemon` report as freed is the registry after `load_plugins`. Plugins or objects that the running server adds or removes are not modelled.
- Monitor.Text: printing a NULL file name with `%s` is undefined in C. The model uses the C library's usual `(null)`. The form of a `%p` value is a parameter.
- `g_type_init`, `g_thread_init`, and the internals of `tcore_server_new`, `tcore_server_run` and `tcore_server_free`. Whether `tcore_server_new` succeeds is an input. The result of `tcore_server_run` is not modelled, because both outcomes lead to the same `free_end` path.
- Logging, `printf` of the usage text, `%p` formatting, `g_free` and `free`: a log line is a `Line` value, and the usage text is one `Usage` step.
- `tcore_server_print_modems`: its output is one `ModemDump` line per plugin. The `tcore_queue_type` struct redefined in src/monitor.c:44-48 is never used by the dump.
- Loader.BuildFilename: joins the directory and the name with one `/`, or with none when the directory already ends in `/`. It does not collapse repeated separators as `g_build_filename` does.
- Monitor.PluginEntries: a NULL plugin record or NULL descriptor dereference, undefined behaviour in C, is modelled as a dump that stops with `crashed` set.
- Daemon.OnSignalUsr1: a dump through the freed `_server` is undefined behaviour in C. It is modelled as the outcome `ReadsFreed`, without the lines such a dump might log.
- Module `init` callbacks: an `init`'s effect is fixed data. It can link user data to its own record and register storages and communicators. An `init` that reads the registry, adds or removes plugin records, or touches other records is not modelled. Such an `init` could change which records the second pass visits next.
- Registry.AddPlugin: `tcore_server_add_plugin` lives in the server library, which is not part of this model. It is assumed to append the record at the end of the plugin list, and `tcore_server_ref_plugins` is assumed to return the list in insertion order. Every enumeration-order property of the walk, the `init` pass and the dump rests on this.
- `tcore_plugin_link_user_data`, `tcore_server_add_storage` and `tcore_server_add_communicator` live in the server library, which is not part of this model. Their effect is modelled by `Registry.LinkUserData` and `Registry.AddObjects`.
- Plugin identities: `tcore_plugin_new` allocates a fresh object. The model uses the record's position in the plugin list as its identity.

=== FILE: daemon.dfy ===
/**
  The control flow of the daemon's `main` after option parsing, and the
  SIGUSR1 handler. Option parsing itself, GLib set-up, the server's main
  loop and signal delivery are outside the model: their outcomes are
  inputs.
 */
module Daemon {
  import opened Optional
  import opened Registry
  import opened Loader
  import opened Discovery
  import Monitor

  /** The plugin directory used when no positional argument is given. */
  const DefaultPluginPath: string := "/usr/lib/telephony/plugins/"

  /** `EXIT_SUCCESS`. */
  const ExitSuccess: int := 0

  /** One option as the option parser reports it: `-h`/`--help`, `-T`/`--testload`, or anything else. */
  datatype Opt = HelpOpt | TestLoadOpt | OtherOpt

  datatype Flags = Flags(help: bool, testLoad: bool)

  /**
    The option loop of `main`: a help request ends it at once; test-load
    sets a flag; any other option is ignored.
   */
  function ScanOptions(opts: seq<Opt>): (r: Flags)
    ensures r.help <==> HelpOpt in opts
    ensures !r.help ==> (r.testLoad <==> TestLoadOpt in opts)
  {
    if |opts| == 0 then Flags(false, false)
    else
      match opts[0]
      case HelpOpt => Flags(true, false)
      case TestLoadOpt => Flags(ScanOptions(opts[1..]).help, true)
      case OtherOpt => ScanOptions(opts[1..])
  }

  /** The plugin directory: the first positional argument, else the default. */
  function PluginPath(positionals: seq<string>): string
  {
    if |positionals| > 0 then positionals[0] else DefaultPluginPath
  }

  /** The outcomes of the collaborators `main` calls but this model does not contain. */
  datatype Environment = Environment(serverNewOk: bool, directories: map<string, seq<Entry>>)

  /** What `main` does, in order. */
  datatype Step =
    | Usage
    | NewServer
    | Loaded(path: string, testLoad: bool, ok: bool)
    | RunServer
    | FreeServer

  /**
    What the global `_server` refers to. It is unset until the server
    exists, then refers to the live server. `main` never clears it, so after
    `tcore_server_free` it still refers to the released server; `Freed`
    keeps the contents the server had when it was released.
   */
  datatype Global = Unset | Live(server: Server) | Freed(server: Server)

  /** How `main` ends: its exit code, its steps, the events of `load_plugins`, and what `_server` refers to when it returns. */
  datatype Exit = Exit(code: int, steps: seq<Step>, loaderTrace: seq<Event>, global: Global)

  /**
    What one SIGUSR1 does: nothing, one monitor dump of the live server, or
    a dump that reads a released server, which the model does not follow.
   */
  datatype SignalOutcome = Ignored | Dumped(dump: Monitor.Dump) | ReadsFreed

  /** The SIGUSR1 handler: it returns at once while `_server` is NULL and otherwise dumps whatever `_server` refers to. */
  function OnSignalUsr1(global: Global): (r: SignalOutcome)
    ensures r.Ignored? <==> global.Unset?
    ensures r.Dumped? <==> global.Live?
    ensures global.Live? ==> r.dump == Monitor.ServerState(global.server)
    ensures r.ReadsFreed? <==> global.Freed?
  {
    match global
    case Unset => Ignored
    case Live(s) => Dumped(Monitor.ServerState(s))
    case Freed(_) => ReadsFreed
  }

  /** Every record `load_plugins` leaves in a registry it started empty has a descriptor, so the dump of it cannot fault. */
  lemma LoadedRegistryDumpsCleanly(s': Server, dir: string, entries: seq<Entry>, testLoad: bool)
    requires s'.plugins == AfterInit(Registrations(dir, entries, testLoad, 0))
    ensures Monitor.AllPrintable(s'.plugins)
  {
    RegistrationsHaveDescriptors(dir, entries, testLoad, 0);
    AfterInitKeepsRecords(Registrations(dir, entries, testLoad, 0));
  }

  /**
    `_server` is set before `load_plugins` runs, so a SIGUSR1 can arrive
    while the walk is part-way through the directory. The registry then
    holds the records of the entries seen so far, and its dump cannot fault.
   */
  lemma SignalDuringWalkDumpsCleanly(dir: string, entries: seq<Entry>, i: nat, testLoad: bool)
    requires i <= |entries|
    ensures Monitor.AllPrintable(Registrations(dir, entries[..i], testLoad, 0))
  {
    RegistrationsHaveDescriptors(dir, entries[..i], testLoad, 0);
  }

  /**
    A SIGUSR1 can also arrive part-way through the second pass. The records
    visited so far are as their `init` left them and the rest are as the
    walk left them, so the dump of that registry cannot fault either.
   */
  lemma SignalDuringInitPassDumpsCleanly(walked: Server, cur: Server, i: nat)
    requires Monitor.AllPrintable(walked.plugins) && InitDoneUpTo(walked, cur, i)
    ensures Monitor.AllPrintable(cur.plugins)
  {
    AfterInitKeepsRecords(walked.plugins);
    forall j | 0 <= j < |cur.plugins|
      ensures Monitor.Printable(cur.plugins[j])
    {
      if j < i {
        assert cur.plugins[j] == AfterInit(walked.plugins)[j];
      }
    }
  }

  /** A SIGUSR1 that arrives while a server built by startup is live produces a dump that does not fault. */
  lemma SignalAfterStartupDumpsCleanly(s: Server)
    requires Monitor.AllPrintable(s.plugins)
    ensures OnSignalUsr1(Live(s)).Dumped?
    ensures !OnSignalUsr1(Live(s)).dump.crashed
    ensures OnSignalUsr1(Live(s)).dump.lines[0] == Monitor.Header(Monitor.Plugins)
  {
  }

  /** The plugin directory as the environment lists it: None when it cannot be opened. */
  function Listing(env: Environment, path: string): Option<seq<Entry>>
  {
    if path in env.directories then Some(env.directories[path]) else None
  }

  /**
    The registry `load_plugins` leaves in a freshly created server: the
    accepted records as their `init` left them, and the storages and
    communicators those `init` calls registered. Nothing when the directory
    cannot be opened.
   */
  function LoadedServer(path: string, listing: Option<seq<Entry>>, testLoad: bool): Server
  {
    match listing
    case None => EmptyServer
    case Some(entries) =>
      var walked := Registrations(path, entries, testLoad, 0);
      Server(AfterInit(walked), InitStorages(walked), InitCommunicators(walked))
  }

  /** The events of `load_plugins` on a freshly created server: the walk's, then the `init` calls. */
  function LoaderEvents(path: string, listing: Option<seq<Entry>>, testLoad: bool): seq<Event>
  {
    match listing
    case None => []
    case Some(entries) => WalkEvents(path, entries, testLoad) + InitEvents(Registrations(path, entries, testLoad, 0))
  }

  /**
    `main` once the server exists: load the plugins from `path`, run the
    server unless loading failed or test-load is set, then free the server.
    `s'` is the registry when it is freed.
   */
  method Serve(path: string, listing: Option<seq<Entry>>, testLoad: bool)
    returns (steps: seq<Step>, trace: seq<Event>, s': Server)
    ensures steps == [NewServer, Loaded(path, testLoad, listing.Some?)] +
                     (if listing.Some? && !testLoad then [RunServer] else []) + [FreeServer]
    ensures listing.Some? ==>
              var walked := Registrations(path, listing.value, testLoad, 0);
              && s'.plugins == AfterInit(walked)
              && s'.storages == InitStorages(walked)
              && s'.communicators == InitCommunicators(walked)
              && trace == WalkEvents(path, listing.value, testLoad) + InitEvents(walked)
    ensures listing.None? ==> s' == EmptyServer && trace == []
    ensures s' == LoadedServer(path, listing, testLoad) && trace == LoaderEvents(path, listing, testLoad)
    ensures testLoad ==> s' == EmptyServer && forall k :: 0 <= k < |trace| ==> trace[k].Open? || trace[k].Close?
    ensures Monitor.AllPrintable(s'.plugins)
  {
    var ok, initFailed;
    ok, s', trace, initFailed := LoadPlugins(EmptyServer, path, listing, testLoad);
    steps := [NewServer, Loaded(path, testLoad, ok)];
    if ok {
      assert [] + Registrations(path, listing.value, testLoad, 0) == Registrations(path, listing.value, testLoad, 0);
      LoadedRegistryDumpsCleanly(s', path, listing.value, testLoad);
    }
    if ok && !testLoad {
      steps := steps + [RunServer];
    }
    steps := steps + [FreeServer];
  }

  /**
    The steps of `main` once the server exists: no usage text, exactly one
    load from `path`, a run exactly when loading succeeded without
    test-load, and the server freed last.
   */
  lemma ServeStepsShape(steps: seq<Step>, path: string, testLoad: bool, ok: bool)
    requires steps == [NewServer, Loaded(path, testLoad, ok)] + (if ok && !testLoad then [RunServer] else []) + [FreeServer]
    ensures Usage !in steps && Loaded(path, testLoad, ok) in steps
    ensures |steps| > 0 && steps[|steps| - 1] == FreeServer
    ensures forall k :: 0 <= k < |steps| && steps[k].Loaded? ==> steps[k] == Loaded(path, testLoad, ok)
    ensures RunServer in steps <==> ok && !testLoad
  {
    assert steps[1] == Loaded(path, testLoad, ok);
  }

  /**
    `main` after option parsing when no help was requested: create the
    server and, if that worked, serve from the chosen plugin path. The
    global `_server` is set as soon as the server exists and is never
    cleared.
   */
  method Start(positionals: seq<string>, testLoad: bool, env: Environment) returns (exit: Exit)
    ensures exit.code == ExitSuccess
    ensures exit.global.Unset? <==> !env.serverNewOk
    ensures exit.global.Unset? ==> exit.steps == [] && exit.loaderTrace == []
    ensures env.serverNewOk ==> exit.global.Freed?
    ensures env.serverNewOk ==>
              exit.steps == [NewServer, Loaded(PluginPath(positionals), testLoad, PluginPath(positionals) in env.directories)] +
                            (if PluginPath(positionals) in env.directories && !testLoad then [RunServer] else []) + [FreeServer]
    ensures Usage !in exit.steps
    ensures exit.global.Freed? <==> |exit.steps| > 0 && exit.steps[|exit.steps| - 1] == FreeServer
    ensures env.serverNewOk ==> Loaded(PluginPath(positionals), testLoad, PluginPath(positionals) in env.directories) in exit.steps
    ensures forall k :: 0 <= k < |exit.steps| && exit.steps[k].Loaded? ==>
              exit.steps[k] == Loaded(PluginPath(positionals), testLoad, PluginPath(positionals) in env.directories)
    ensures RunServer in exit.steps <==> env.serverNewOk && PluginPath(positionals) in env.directories && !testLoad
    ensures env.serverNewOk ==>
              && exit.global.server == LoadedServer(PluginPath(positionals), Listing(env, PluginPath(positionals)), testLoad)
              && exit.loaderTrace == LoaderEvents(PluginPath(positionals), Listing(env, PluginPath(positionals)), testLoad)
    ensures env.serverNewOk && testLoad ==>
              exit.global.server == EmptyServer &&
              forall k :: 0 <= k < |exit.loaderTrace| ==> exit.loaderTrace[k].Open? || exit.loaderTrace[k].Close?
    ensures env.serverNewOk ==> Monitor.AllPrintable(exit.global.server.plugins)
    ensures env.serverNewOk ==> OnSignalUsr1(exit.global).ReadsFreed?
  {
    var path := PluginPath(positionals);
    if !env.serverNewOk {
      return Exit(ExitSuccess, [], [], Unset);
    }
    var listing := Listing(env, path);
    var steps, trace, s' := Serve(path, listing, testLoad);
    ServeStepsShape(steps, path, testLoad, listing.Some?);
    exit := Exit(ExitSuccess, steps, trace, Freed(s'));
  }

  /**
    `main` from option parsing on: a help request prints the usage and
    returns at once; anything else starts the daemon. Every path returns
    `EXIT_SUCCESS`.
   */
  method RunDaemon(opts: seq<Opt>, positionals: seq<string>, env: Environment) returns (exit: Exit)
    ensures exit.code == ExitSuccess
    ensures HelpOpt in opts <==> exit.steps == [Usage]
    ensures HelpOpt in opts ==> exit.loaderTrace == [] && exit.global.Unset?
    ensures HelpOpt !in opts && !env.serverNewOk ==> exit.steps == [] && exit.loaderTrace == []
    ensures HelpOpt !in opts && env.serverNewOk ==>
              exit.steps == [NewServer, Loaded(PluginPath(positionals), TestLoadOpt in opts, PluginPath(positionals) in env.directories)] +
                            (if PluginPath(positionals) in env.directories && TestLoadOpt !in opts then [RunServer] else []) + [FreeServer]
    ensures exit.global.Unset? <==> HelpOpt in opts || !env.serverNewOk
    ensures HelpOpt !in opts && env.serverNewOk ==>
              Loaded(PluginPath(positionals), TestLoadOpt in opts, PluginPath(positionals) in env.directories) in exit.steps
    ensures RunServer in exit.steps <==>
              HelpOpt !in opts && env.serverNewOk && PluginPath(positionals) in env.directories && TestLoadOpt !in opts
    ensures HelpOpt !in opts && env.serverNewOk ==>
              && exit.global == Freed(LoadedServer(PluginPath(positionals), Listing(env, PluginPath(positionals)), TestLoadOpt in opts))
              && exit.loaderTrace == LoaderEvents(PluginPath(positionals), Listing(env, PluginPath(positionals)), TestLoadOpt in opts)
    ensures HelpOpt !in opts && env.serverNewOk && TestLoadOpt in opts ==>
              exit.global == Freed(EmptyServer) &&
              forall k :: 0 <= k < |exit.loaderTrace| ==> exit.loaderTrace[k].Open? || exit.loaderTrace[k].Close?
  {
    var flags := ScanOptions(opts);
    if flags.help {
      return Exit(ExitSuccess, [Usage], [], Unset);
    }
    exit := Start(positionals, flags.testLoad, env);
  }
}

=== FILE: discovery.dfy ===
/**
  `load_plugins`: the walk over a plugin directory that registers every
  accepted module in enumeration order, followed by one pass that calls each
  registered module's `init`.
 */
module Discovery {
  import opened Optional
  import opened Registry
  import opened Sequences
  import opened Loader

  /** The positions of the entries the decision chain accepts, in enumeration order. */
  function AcceptedIndices(entries: seq<Entry>, testLoad: bool): (r: seq<nat>)
    ensures forall k :: 0 <= k < |r| ==> r[k] < |entries| && Decide(entries[r[k]], testLoad).Accepted?
    ensures forall i :: 0 <= i < |entries| && Decide(entries[i], testLoad).Accepted? ==> i in r
    ensures forall k, l :: 0 <= k < l < |r| ==> r[k] < r[l]
  {
    if |entries| == 0 then []
    else
      var prior := AcceptedIndices(entries[..|entries| - 1], testLoad);
      assert forall i :: 0 <= i < |entries| - 1 ==> entries[..|entries| - 1][i] == entries[i];
      if Decide(entries[|entries| - 1], testLoad).Accepted? then prior + [|entries| - 1] else prior
  }

  /** Extending the directory by one entry extends the accepted positions by at most that entry. */
  lemma AcceptedIndicesSnoc(entries: seq<Entry>, i: nat, testLoad: bool)
    requires i < |entries|
    ensures AcceptedIndices(entries[..i + 1], testLoad) ==
              AcceptedIndices(entries[..i], testLoad) + (if Decide(entries[i], testLoad).Accepted? then [i] else [])
  {
    assert entries[..i + 1][..i] == entries[..i];
  }

  /** In test-load mode no entry is accepted. */
  lemma TestLoadAcceptsNothing(entries: seq<Entry>)
    ensures AcceptedIndices(entries, true) == []
  {
  }

  /** The record the walk registers for the `k`-th accepted entry when the list held `base` records before. */
  function RecordFor(base: nat, k: nat, dir: string, e: Entry): Plugin
  {
    Plugin(base + k, e.symbol, Some(BuildFilename(dir, e.name)), Null)
  }

  /**
    The records the walk appends to a plugin list that held `base` records:
    one per entry the decision chain accepts, in enumeration order, the
    `k`-th of them taking position `base + k`.
   */
  function Registrations(dir: string, entries: seq<Entry>, testLoad: bool, base: nat): seq<Option<Plugin>>
  {
    var idx := AcceptedIndices(entries, testLoad);
    seq(|idx|, k requires 0 <= k < |idx| => Some(RecordFor(base, k, dir, entries[idx[k]])))
  }

  /** An accepted entry appends its record at the next position. */
  lemma RegistrationsGrow(dir: string, entries: seq<Entry>, i: nat, testLoad: bool, base: nat)
    requires i < |entries| && Decide(entries[i], testLoad).Accepted?
    ensures Registrations(dir, entries[..i + 1], testLoad, base) ==
              Registrations(dir, entries[..i], testLoad, base) +
                [Some(RecordFor(base, |Registrations(dir, entries[..i], testLoad, base)|, dir, entries[i]))]
  {
    AcceptedIndicesSnoc(entries, i, testLoad);
    var before := AcceptedIndices(entries[..i], testLoad);
    var after := AcceptedIndices(entries[..i + 1], testLoad);
    var grown := Registrations(dir, entries[..i + 1], testLoad, base);
    var expected := Registrations(dir, entries[..i], testLoad, base) + [Some(RecordFor(base, |before|, dir, entries[i]))];
    assert after == before + [i];
    forall k | 0 <= k < |grown|
      ensures grown[k] == expected[k]
    {
      if k < |before| {
        assert after[k] == before[k];
        assert entries[..i + 1][before[k]] == entries[..i][before[k]];
      } else {
        assert after[k] == i;
      }
    }
  }

  /** An entry the chain does not accept appends nothing. */
  lemma RegistrationsKeep(dir: string, entries: seq<Entry>, i: nat, testLoad: bool, base: nat)
    requires i < |entries| && !Decide(entries[i], testLoad).Accepted?
    ensures Registrations(dir, entries[..i + 1], testLoad, base) == Registrations(dir, entries[..i], testLoad, base)
  {
    AcceptedIndicesSnoc(entries, i, testLoad);
    var before := AcceptedIndices(entries[..i], testLoad);
    forall k | 0 <= k < |before|
      ensures entries[..i + 1][before[k]] == entries[..i][before[k]]
    {
    }
  }

  /** Every record the walk appends carries the descriptor it was accepted with. */
  lemma RegistrationsHaveDescriptors(dir: string, entries: seq<Entry>, testLoad: bool, base: nat)
    ensures var r := Registrations(dir, entries, testLoad, base);
      forall k :: 0 <= k < |r| ==> r[k].Some? && r[k].value.desc.Some?
  {
    var idx := AcceptedIndices(entries, testLoad);
    forall k | 0 <= k < |idx|
      ensures entries[idx[k]].symbol.Some?
    {
      assert Decide(entries[idx[k]], testLoad).Accepted?;
    }
  }

  /** The records the walk appends take the next free positions as their identities. */
  lemma RegistrationsKeepIdsPositions(s: Server, dir: string, entries: seq<Entry>, testLoad: bool)
    requires WellFormed(s)
    ensures IdsArePositions(s.plugins + Registrations(dir, entries, testLoad, |s.plugins|))
  {
    var r := Registrations(dir, entries, testLoad, |s.plugins|);
    var all := s.plugins + r;
    forall i | 0 <= i < |all| && all[i].Some?
      ensures all[i].value.id == i
    {
      if i >= |s.plugins| {
        assert all[i] == r[i - |s.plugins|];
      } else {
        assert all[i] == s.plugins[i];
      }
    }
  }

  /** In test-load mode the walk registers nothing. */
  lemma TestLoadRegistersNothing(dir: string, entries: seq<Entry>, base: nat)
    ensures Registrations(dir, entries, true, base) == []
  {
    TestLoadAcceptsNothing(entries);
  }

  /** The events of the whole walk: each entry's events, in enumeration order. */
  function WalkEvents(dir: string, entries: seq<Entry>, testLoad: bool): (r: seq<Event>)
    ensures forall k :: 0 <= k < |r| ==> !r[k].CallInit?
    ensures testLoad ==> forall k :: 0 <= k < |r| ==> r[k].Open? || r[k].Close?
  {
    if |entries| == 0 then []
    else WalkEvents(dir, entries[..|entries| - 1], testLoad) + EntryEvents(dir, entries[|entries| - 1], testLoad)
  }

  /** `ev` is not an open attempt, or one on the path of an entry of `entries` that passes the name filter. */
  predicate OpensCandidate(dir: string, entries: seq<Entry>, ev: Event)
  {
    ev.Open? ==> exists i :: 0 <= i < |entries| && IsCandidate(entries[i].name) && ev.file == BuildFilename(dir, entries[i].name)
  }

  /** The walk only tries to open files of entries that pass the name filter. */
  lemma {:induction false} WalkOpensOnlyCandidates(dir: string, entries: seq<Entry>, testLoad: bool)
    ensures forall k :: 0 <= k < |WalkEvents(dir, entries, testLoad)| ==>
              OpensCandidate(dir, entries, WalkEvents(dir, entries, testLoad)[k])
  {
    if |entries| > 0 {
      var n := |entries|;
      var prefix := entries[..n - 1];
      var prior := WalkEvents(dir, prefix, testLoad);
      var own := EntryEvents(dir, entries[n - 1], testLoad);
      WalkOpensOnlyCandidates(dir, prefix, testLoad);
      var r := WalkEvents(dir, entries, testLoad);
      assert r == prior + own;
      forall k | 0 <= k < |r|
        ensures OpensCandidate(dir, entries, r[k])
      {
        if k < |prior| {
          assert r[k] == prior[k];
          assert OpensCandidate(dir, prefix, prior[k]);
          if r[k].Open? {
            var i :| 0 <= i < |prefix| && IsCandidate(prefix[i].name) && prior[k].file == BuildFilename(dir, prefix[i].name);
            assert prefix[i] == entries[i];
          }
        } else {
          assert r[k] == own[k - |prior|];
          EntryEventsOrder(dir, entries[n - 1], testLoad);
          if r[k].Open? {
            assert IsCandidate(entries[n - 1].name);
          }
        }
      }
    }
  }

  /** A registered record whose descriptor has an `init` callback. */
  predicate HasInit(p: Option<Plugin>)
  {
    p.Some? && p.value.desc.Some? && p.value.desc.value.init.Init?
  }

  /** A registered record whose `init` callback reports failure. */
  predicate InitFails(p: Option<Plugin>)
  {
    HasInit(p) && !p.value.desc.value.init.ok
  }

  /** What the second pass's visit to a record does to the registry: its `init`'s effect, or nothing. */
  function EffectOf(p: Option<Plugin>): InitEffect
  {
    if HasInit(p) then p.value.desc.value.init.effect else NoEffect
  }

  /**
    A record as the second pass leaves it: only its user data can change,
    and only when its `init` links some. Identity, descriptor and path stay.
   */
  function Initialized(p: Option<Plugin>): (r: Option<Plugin>)
    ensures r.Some? <==> p.Some?
    ensures r.Some? ==> r.value.id == p.value.id && r.value.desc == p.value.desc && r.value.filename == p.value.filename
    ensures !HasInit(p) || EffectOf(p).userData.None? ==> r == p
    ensures HasInit(p) && EffectOf(p).userData.Some? ==> r.value.userData == EffectOf(p).userData.value
  {
    match EffectOf(p).userData
    case Some(u) => Some(p.value.(userData := u))
    case None => p
  }

  /** The plugin list after the second pass: every record as its own `init` left it. */
  function AfterInit(plugins: seq<Option<Plugin>>): seq<Option<Plugin>>
  {
    seq(|plugins|, i requires 0 <= i < |plugins| => Initialized(plugins[i]))
  }

  /** The second pass keeps the list's length, its NULL entries, its identities and its descriptors. */
  lemma AfterInitKeepsRecords(plugins: seq<Option<Plugin>>)
    ensures |AfterInit(plugins)| == |plugins|
    ensures forall i :: 0 <= i < |plugins| ==>
              (AfterInit(plugins)[i].Some? <==> plugins[i].Some?) &&
              (plugins[i].Some? ==> AfterInit(plugins)[i].value.desc == plugins[i].value.desc)
    ensures IdsArePositions(plugins) ==> IdsArePositions(AfterInit(plugins))
  {
  }

  /** The storages the second pass registers, in list order of the records whose `init` registers them. */
  function InitStorages(plugins: seq<Option<Plugin>>): seq<Storage>
  {
    if |plugins| == 0 then []
    else InitStorages(plugins[..|plugins| - 1]) + EffectOf(plugins[|plugins| - 1]).storages
  }

  /** The communicators the second pass registers, in list order of the records whose `init` registers them. */
  function InitCommunicators(plugins: seq<Option<Plugin>>): seq<Communicator>
  {
    if |plugins| == 0 then []
    else InitCommunicators(plugins[..|plugins| - 1]) + EffectOf(plugins[|plugins| - 1]).communicators
  }

  /** Records without `init` register nothing: over such a list the second pass adds no storage and no communicator. */
  lemma {:induction false} NoInitNoObjects(plugins: seq<Option<Plugin>>)
    requires forall i :: 0 <= i < |plugins| ==> !HasInit(plugins[i])
    ensures InitStorages(plugins) == [] && InitCommunicators(plugins) == []
  {
    if |plugins| > 0 {
      var prefix := plugins[..|plugins| - 1];
      assert forall i :: 0 <= i < |prefix| ==> prefix[i] == plugins[i];
      NoInitNoObjects(prefix);
    }
  }

  /** The `init` calls the second pass makes over `plugins`, in list order. */
  function InitEvents(plugins: seq<Option<Plugin>>): (r: seq<Event>)
    ensures forall k :: 0 <= k < |r| ==> r[k].CallInit?
    ensures |r| <= |plugins|
  {
    if |plugins| == 0 then []
    else
      var last := plugins[|plugins| - 1];
      InitEvents(plugins[..|plugins| - 1]) + (if HasInit(last) then [CallInit(last.value.id)] else [])
  }

  /** One more record extends the second pass's calls by that record's call, if it has `init`. */
  lemma InitEventsSnoc(plugins: seq<Option<Plugin>>, i: nat)
    requires i < |plugins|
    ensures InitEvents(plugins[..i + 1]) ==
              InitEvents(plugins[..i]) + (if HasInit(plugins[i]) then [CallInit(plugins[i].value.id)] else [])
  {
    assert plugins[..i + 1][..i] == plugins[..i];
  }

  /** When identities are positions, every `init` call of the pass names a position of the list. */
  lemma {:induction false} InitEventsInRange(plugins: seq<Option<Plugin>>)
    requires IdsArePositions(plugins)
    ensures forall k :: 0 <= k < |InitEvents(plugins)| ==> InitEvents(plugins)[k].plugin < |plugins|
  {
    if |plugins| > 0 {
      var prefix := plugins[..|plugins| - 1];
      IdsArePositionsPrefix(plugins, |plugins| - 1);
      InitEventsInRange(prefix);
    }
  }

  /** Identities that are positions stay positions in a prefix of the list. */
  lemma IdsArePositionsPrefix(plugins: seq<Option<Plugin>>, n: nat)
    requires IdsArePositions(plugins) && n <= |plugins|
    ensures IdsArePositions(plugins[..n])
  {
    forall i | 0 <= i < n && plugins[..n][i].Some?
      ensures plugins[..n][i].value.id == i
    {
      assert plugins[..n][i] == plugins[i];
    }
  }

  /** The last record's contribution to the count of `CallInit(i)`. */
  lemma InitCountStep(plugins: seq<Option<Plugin>>, i: nat)
    requires 0 < |plugins| && IdsArePositions(plugins)
    ensures var n := |plugins|;
      CountOf(InitEvents(plugins), CallInit(i)) ==
        CountOf(InitEvents(plugins[..n - 1]), CallInit(i)) + (if i == n - 1 && HasInit(plugins[n - 1]) then 1 else 0)
  {
    var n := |plugins|;
    var last := plugins[n - 1];
    var prior := InitEvents(plugins[..n - 1]);
    if HasInit(last) {
      assert last.value.id == n - 1;
      CountOfAppend(prior, [CallInit(n - 1)], CallInit(i));
      assert [CallInit(n - 1)][..0] == [];
    } else {
      assert InitEvents(plugins) == prior + [];
      assert prior + [] == prior;
    }
  }

  /** Over a well-formed plugin list, `init` is called exactly once for each record that has one, and never for the others. */
  lemma {:induction false} InitOncePerPlugin(plugins: seq<Option<Plugin>>)
    requires IdsArePositions(plugins)
    ensures forall i :: 0 <= i < |plugins| ==>
              CountOf(InitEvents(plugins), CallInit(i)) == (if HasInit(plugins[i]) then 1 else 0)
  {
    if |plugins| > 0 {
      var n := |plugins|;
      var prefix := plugins[..n - 1];
      IdsArePositionsPrefix(plugins, n - 1);
      InitOncePerPlugin(prefix);
      InitEventsInRange(prefix);
      forall i | 0 <= i < n
        ensures CountOf(InitEvents(plugins), CallInit(i)) == (if HasInit(plugins[i]) then 1 else 0)
      {
        InitCountStep(plugins, i);
        if i == n - 1 {
          assert CallInit(i) !in InitEvents(prefix) by {
            forall k | 0 <= k < |InitEvents(prefix)|
              ensures InitEvents(prefix)[k] != CallInit(i)
            {
              assert InitEvents(prefix)[k].plugin < n - 1;
            }
          }
        } else {
          assert prefix[i] == plugins[i];
        }
      }
    }
  }

  /**
    The call `desc->init(p)` for the record at position `i`: returns what
    `init` returns, after linking the user data and registering the
    storages and communicators its effect names.
   */
  method RunInit(s: Server, i: nat) returns (s': Server, ok: bool)
    requires i < |s.plugins| && HasInit(s.plugins[i])
    ensures ok <==> !InitFails(s.plugins[i])
    ensures |s'.plugins| == |s.plugins| && s'.plugins[i] == Initialized(s.plugins[i])
    ensures forall j :: 0 <= j < |s.plugins| && j != i ==> s'.plugins[j] == s.plugins[j]
    ensures s'.storages == s.storages + EffectOf(s.plugins[i]).storages
    ensures s'.communicators == s.communicators + EffectOf(s.plugins[i]).communicators
  {
    var hook := s.plugins[i].value.desc.value.init;
    s' := s;
    if hook.effect.userData.Some? {
      s' := LinkUserData(s', i, hook.effect.userData.value);
    }
    s' := AddObjects(s', hook.effect.storages, hook.effect.communicators);
    ok := hook.ok;
  }

  /**
    The second pass's visit to the record at position `i`: NULL records,
    records without a descriptor and descriptors without `init` are
    skipped; any other record has its `init` called. Reports whether `init`
    was called and what it returned.
   */
  method VisitRecord(s: Server, i: nat) returns (s': Server, called: bool, ok: bool)
    requires i < |s.plugins|
    ensures called <==> HasInit(s.plugins[i])
    ensures called ==> (ok <==> !InitFails(s.plugins[i]))
    ensures |s'.plugins| == |s.plugins| && s'.plugins[i] == Initialized(s.plugins[i])
    ensures forall j :: 0 <= j < |s.plugins| && j != i ==> s'.plugins[j] == s.plugins[j]
    ensures s'.storages == s.storages + EffectOf(s.plugins[i]).storages
    ensures s'.communicators == s.communicators + EffectOf(s.plugins[i]).communicators
  {
    var p := s.plugins[i];
    if p.Some? && p.value.desc.Some? && p.value.desc.value.init.Init? {
      s', ok := RunInit(s, i);
      called := true;
    } else {
      assert s.storages + [] == s.storages && s.communicators + [] == s.communicators;
      s', called, ok := s, false, false;
    }
  }

  /** The second pass's invariant on storages and communicators survives one more record. */
  lemma InitObjectsStep(s: Server, before: Server, after: Server, i: nat)
    requires i < |s.plugins|
    requires before.storages == s.storages + InitStorages(s.plugins[..i])
    requires before.communicators == s.communicators + InitCommunicators(s.plugins[..i])
    requires after.storages == before.storages + EffectOf(s.plugins[i]).storages
    requires after.communicators == before.communicators + EffectOf(s.plugins[i]).communicators
    ensures after.storages == s.storages + InitStorages(s.plugins[..i + 1])
    ensures after.communicators == s.communicators + InitCommunicators(s.plugins[..i + 1])
  {
    assert s.plugins[..i + 1][..i] == s.plugins[..i];
    AppendStep(s.storages, InitStorages(s.plugins[..i]), EffectOf(s.plugins[i]).storages,
               InitStorages(s.plugins[..i + 1]), before.storages, after.storages);
    AppendStep(s.communicators, InitCommunicators(s.plugins[..i]), EffectOf(s.plugins[i]).communicators,
               InitCommunicators(s.plugins[..i + 1]), before.communicators, after.communicators);
  }

  /**
    The registry `cur` after the second pass has visited the first `i`
    records of `s`: those records as their `init` left them, the rest
    untouched, and the storages and communicators of those `init` calls
    appended in list order.
   */
  ghost predicate InitDoneUpTo(s: Server, cur: Server, i: nat)
  {
    && i <= |s.plugins| && |cur.plugins| == |s.plugins|
    && (forall j :: 0 <= j < i ==> cur.plugins[j] == Initialized(s.plugins[j]))
    && (forall j :: i <= j < |s.plugins| ==> cur.plugins[j] == s.plugins[j])
    && cur.storages == s.storages + InitStorages(s.plugins[..i])
    && cur.communicators == s.communicators + InitCommunicators(s.plugins[..i])
  }

  /** Visiting record `i` extends the second pass's progress by one record. */
  lemma InitDoneStep(s: Server, before: Server, after: Server, i: nat)
    requires InitDoneUpTo(s, before, i) && i < |s.plugins|
    requires |after.plugins| == |s.plugins| && after.plugins[i] == Initialized(before.plugins[i])
    requires forall j :: 0 <= j < |s.plugins| && j != i ==> after.plugins[j] == before.plugins[j]
    requires after.storages == before.storages + EffectOf(before.plugins[i]).storages
    requires after.communicators == before.communicators + EffectOf(before.plugins[i]).communicators
    ensures InitDoneUpTo(s, after, i + 1)
  {
    InitObjectsStep(s, before, after, i);
  }

  /**
    The second pass's bookkeeping after visiting the first `i` records: one
    call for each visited record with `init`, none for the others yet, the
    visited positions whose `init` failed, and the calls made so far.
   */
  ghost predicate CallsUpTo(plugins: seq<Option<Plugin>>, calls: seq<nat>, failed: seq<nat>, events: seq<Event>, i: nat)
  {
    && i <= |plugins| && |calls| == |plugins|
    && (forall j :: 0 <= j < i ==> calls[j] == (if HasInit(plugins[j]) then 1 else 0))
    && (forall j :: i <= j < |plugins| ==> calls[j] == 0)
    && (forall j :: j in failed <==> 0 <= j < i && InitFails(plugins[j]))
    && events == InitEvents(plugins[..i])
  }

  /** Recording the visit to record `i` extends the bookkeeping by one record. */
  lemma CallsStep(plugins: seq<Option<Plugin>>, calls: seq<nat>, failed: seq<nat>, events: seq<Event>, i: nat, ok: bool)
    requires CallsUpTo(plugins, calls, failed, events, i) && i < |plugins|
    requires HasInit(plugins[i]) ==> (ok <==> !InitFails(plugins[i]))
    ensures HasInit(plugins[i]) ==>
              CallsUpTo(plugins, calls[i := calls[i] + 1], if ok then failed else failed + [i],
                        events + [CallInit(plugins[i].value.id)], i + 1)
    ensures !HasInit(plugins[i]) ==> CallsUpTo(plugins, calls, failed, events, i + 1)
  {
    InitEventsSnoc(plugins, i);
  }

  /** Once every record is visited, the registry is the second pass's result. */
  lemma InitDoneAll(s: Server, cur: Server)
    requires InitDoneUpTo(s, cur, |s.plugins|)
    ensures cur.plugins == AfterInit(s.plugins)
    ensures cur.storages == s.storages + InitStorages(s.plugins)
    ensures cur.communicators == s.communicators + InitCommunicators(s.plugins)
  {
    assert s.plugins[..|s.plugins|] == s.plugins;
  }

  /**
    The second pass of `load_plugins`: walks the plugin list once, skipping
    NULL records, records without a descriptor and descriptors without
    `init`, and calls every other `init` once. Each `init` may link user
    data to its record and register storages and communicators. A failing
    `init` is only noted; the record stays in the list.
   */
  method InitPass(s: Server) returns (s': Server, calls: seq<nat>, failed: seq<nat>, events: seq<Event>)
    ensures |calls| == |s.plugins|
    ensures forall i :: 0 <= i < |s.plugins| ==> calls[i] == (if HasInit(s.plugins[i]) then 1 else 0)
    ensures forall i :: i in failed <==> 0 <= i < |s.plugins| && InitFails(s.plugins[i])
    ensures events == InitEvents(s.plugins)
    ensures s'.plugins == AfterInit(s.plugins)
    ensures s'.storages == s.storages + InitStorages(s.plugins)
    ensures s'.communicators == s.communicators + InitCommunicators(s.plugins)
  {
    s' := s;
    calls := seq(|s.plugins|, _ => 0);
    failed := [];
    events := [];
    var i := 0;
    assert s.storages + [] == s.storages && s.communicators + [] == s.communicators;
    while i < |s.plugins|
      invariant 0 <= i <= |s.plugins|
      invariant CallsUpTo(s.plugins, calls, failed, events, i)
      invariant InitDoneUpTo(s, s', i)
    {
      ghost var before := s';
      var p := s'.plugins[i];
      var called, ok;
      s', called, ok := VisitRecord(s', i);
      InitDoneStep(s, before, s', i);
      CallsStep(s.plugins, calls, failed, events, i, ok);
      if called {
        calls := calls[i := calls[i] + 1];
        events := events + [CallInit(p.value.id)];
        if !ok {
          failed := failed + [i];
        }
      }
      i := i + 1;
    }
    assert s.plugins[..i] == s.plugins;
    InitDoneAll(s, s');
  }

  /** Every `Register` event of the walk comes before every `init` call of the second pass. */
  lemma PhasesInOrder(walk: seq<Event>, inits: seq<Event>)
    requires forall k :: 0 <= k < |walk| ==> !walk[k].CallInit?
    requires forall k :: 0 <= k < |inits| ==> inits[k].CallInit?
    ensures var trace := walk + inits;
      forall a, b :: 0 <= a < |trace| && 0 <= b < |trace| && trace[a].Register? && trace[b].CallInit? ==> a < b
  {
    var trace := walk + inits;
    forall a, b | 0 <= a < |trace| && 0 <= b < |trace| && trace[a].Register? && trace[b].CallInit?
      ensures a < b
    {
    }
  }

  /** One more entry: the walk's events grow by exactly that entry's. */
  lemma WalkEventsSnoc(dir: string, entries: seq<Entry>, i: nat, testLoad: bool)
    requires i < |entries|
    ensures WalkEvents(dir, entries[..i + 1], testLoad) == WalkEvents(dir, entries[..i], testLoad) + EntryEvents(dir, entries[i], testLoad)
  {
    assert entries[..i + 1][..i] == entries[..i];
  }

  /** One accepted entry: the record `tcore_plugin_new` creates for it and appends is the next registration. */
  lemma WalkAcceptStep(s: Server, cur: Server, dir: string, entries: seq<Entry>, i: nat, testLoad: bool)
    requires i < |entries| && Decide(entries[i], testLoad).Accepted?
    requires cur.plugins == s.plugins + Registrations(dir, entries[..i], testLoad, |s.plugins|)
    ensures AddPlugin(cur, NewPlugin(cur, Decide(entries[i], testLoad).desc, BuildFilename(dir, entries[i].name))).plugins
              == s.plugins + Registrations(dir, entries[..i + 1], testLoad, |s.plugins|)
  {
    var prior := Registrations(dir, entries[..i], testLoad, |s.plugins|);
    RegistrationsGrow(dir, entries, i, testLoad, |s.plugins|);
    var p := NewPlugin(cur, Decide(entries[i], testLoad).desc, BuildFilename(dir, entries[i].name));
    assert p == RecordFor(|s.plugins|, |prior|, dir, entries[i]);
    AppendStep(s.plugins, prior, [Some(p)], Registrations(dir, entries[..i + 1], testLoad, |s.plugins|),
               cur.plugins, cur.plugins + [Some(p)]);
  }

  /**
    The directory walk of `load_plugins` over an opened directory: the
    decision chain applied to each entry in turn, registering the accepted
    ones as new records at the end of the list.
   */
  method Walk(s: Server, dir: string, entries: seq<Entry>, testLoad: bool) returns (s': Server, trace: seq<Event>)
    ensures s'.plugins == s.plugins + Registrations(dir, entries, testLoad, |s.plugins|)
    ensures s'.storages == s.storages && s'.communicators == s.communicators
    ensures trace == WalkEvents(dir, entries, testLoad)
  {
    s' := s;
    trace := [];
    var i := 0;
    while i < |entries|
      invariant 0 <= i <= |entries|
      invariant s'.plugins == s.plugins + Registrations(dir, entries[..i], testLoad, |s.plugins|)
      invariant s'.storages == s.storages && s'.communicators == s.communicators
      invariant trace == WalkEvents(dir, entries[..i], testLoad)
    {
      var e := entries[i];
      var v := Decide(e, testLoad);
      if v.Accepted? {
        WalkAcceptStep(s, s', dir, entries, i, testLoad);
        s' := AddPlugin(s', NewPlugin(s', v.desc, BuildFilename(dir, e.name)));
      } else {
        RegistrationsKeep(dir, entries, i, testLoad, |s.plugins|);
      }
      WalkEventsSnoc(dir, entries, i, testLoad);
      trace := trace + EntryEvents(dir, e, testLoad);
      i := i + 1;
    }
    assert entries[..i] == entries;
  }

  /**
    `load_plugins(s, dir, testLoad)`, where `listing` is the directory's
    enumeration, or None when the directory cannot be opened. Returns
    whether the directory opened, the registry afterwards, the events in
    order, and the positions of the records whose `init` failed.
   */
  method LoadPlugins(s: Server, dir: string, listing: Option<seq<Entry>>, testLoad: bool)
    returns (ok: bool, s': Server, trace: seq<Event>, initFailed: seq<nat>)
    ensures ok <==> listing.Some?
    ensures !ok ==> s' == s && trace == [] && initFailed == []
    ensures ok ==>
              var walked := s.plugins + Registrations(dir, listing.value, testLoad, |s.plugins|);
              && s'.plugins == AfterInit(walked)
              && s'.storages == s.storages + InitStorages(walked)
              && s'.communicators == s.communicators + InitCommunicators(walked)
              && trace == WalkEvents(dir, listing.value, testLoad) + InitEvents(walked)
              && (forall i :: i in initFailed <==> 0 <= i < |walked| && InitFails(walked[i]))
    ensures testLoad ==> |s'.plugins| == |s.plugins|
    ensures testLoad && s.plugins == [] ==> s' == s
    ensures WellFormed(s) ==> WellFormed(s')
    ensures forall a, b :: 0 <= a < |trace| && 0 <= b < |trace| && trace[a].Register? && trace[b].CallInit? ==> a < b
  {
    if listing.None? {
      return false, s, [], [];
    }
    var walked, walk;
    walked, walk := Walk(s, dir, listing.value, testLoad);
    if WellFormed(s) {
      RegistrationsKeepIdsPositions(s, dir, listing.value, testLoad);
    }
    if testLoad {
      TestLoadRegistersNothing(dir, listing.value, |s.plugins|);
      assert walked.plugins == s.plugins;
    }
    AfterInitKeepsRecords(walked.plugins);
    if testLoad && s.plugins == [] {
      NoInitNoObjects(walked.plugins);
    }
    var calls, initEvents;
    s', calls, initFailed, initEvents := InitPass(walked);
    trace := walk + initEvents;
    PhasesInOrder(walk, initEvents);
    ok := true;
  }
}

=== FILE: loader.dfy ===
/**
  One step of the plugin directory walk in `load_plugins`: the filename
  filter and the decision chain a single directory entry goes through
  (open, test-load short cut, descriptor lookup, `load` gate). The dynamic
  loader itself is not modelled: each entry carries the outcome its file
  would have at that boundary.
 */
module Loader {
  import opened Optional
  import opened Registry

  /** Files whose name starts with this prefix are the daemon's own libraries and never loaded. */
  const ExcludedPrefix: string := "lib"

  /** Only files with this suffix are loadable modules. */
  const ModuleSuffix: string := ".so"

  predicate HasPrefix(s: string, prefix: string)
  {
    |prefix| <= |s| && s[..|prefix|] == prefix
  }

  predicate HasSuffix(s: string, suffix: string)
  {
    |suffix| <= |s| && s[|s| - |suffix|..] == suffix
  }

  /** The naming convention a directory entry must meet to be tried at all. */
  predicate IsCandidate(file: string)
  {
    !HasPrefix(file, ExcludedPrefix) && HasSuffix(file, ModuleSuffix)
  }

  /** The filter, stated as the shape of the name: some stem followed by ".so", and not "lib" followed by anything. */
  lemma CandidateShape(file: string)
    ensures IsCandidate(file) <==>
              (exists stem :: stem + ModuleSuffix == file) && !(exists rest :: ExcludedPrefix + rest == file)
  {
    if HasSuffix(file, ModuleSuffix) {
      assert file[..|file| - 3] + ModuleSuffix == file;
    }
    if HasPrefix(file, ExcludedPrefix) {
      assert ExcludedPrefix + file[3..] == file;
    }
    forall rest | ExcludedPrefix + rest == file
      ensures HasPrefix(file, ExcludedPrefix)
    {
      assert file[..3] == (ExcludedPrefix + rest)[..3];
    }
    forall stem | stem + ModuleSuffix == file
      ensures HasSuffix(file, ModuleSuffix)
    {
      assert file[|file| - 3..] == (stem + ModuleSuffix)[|stem|..];
    }
  }

  /**
    The path of a directory entry as `g_build_filename` joins it: one
    separator between the directory and the name, none added when the
    directory already ends with one, and the name alone for an empty
    directory.
   */
  function BuildFilename(dir: string, file: string): string
  {
    if |dir| == 0 then file
    else if dir[|dir| - 1] == '/' then dir + file
    else dir + "/" + file
  }

  /** The joined path starts with the directory, ends with the name, and adds at most one separator. */
  lemma BuildFilenameShape(dir: string, file: string)
    ensures var r := BuildFilename(dir, file);
      HasPrefix(r, dir) && HasSuffix(r, file) && |dir| + |file| <= |r| <= |dir| + 1 + |file|
  {
    var r := BuildFilename(dir, file);
    if |dir| > 0 && dir[|dir| - 1] != '/' {
      assert r == dir + ("/" + file);
    }
    assert r[|r| - |file|..] == file;
  }

  /** A directory entry and what the dynamic loader would do with its file: whether it opens, and the descriptor it exports under `plugin_define_desc`, if any. */
  datatype Entry = Entry(name: string, opens: bool, symbol: Option<Descriptor>)

  /** Where an entry leaves the decision chain. */
  datatype Verdict =
    | Filtered
    | OpenFailed
    | TestLoaded
    | MissingSymbol
    | LoadRejected
    | Accepted(desc: Descriptor)

  /** The decision chain of one entry, in the order the checks are made. */
  function Decide(e: Entry, testLoad: bool): (v: Verdict)
    ensures v.Accepted? ==> e.symbol == Some(v.desc)
  {
    if !IsCandidate(e.name) then Filtered
    else if !e.opens then OpenFailed
    else if testLoad then TestLoaded
    else match e.symbol
      case None => MissingSymbol
      case Some(d) =>
        if d.load.Returns? && !d.load.ok then LoadRejected else Accepted(d)
  }

  /**
    The decision chain, stated as conditions on the entry: it is accepted
    exactly when its name passes the filter, its file opens, test-load is
    off, it exports the descriptor, and it has no `load` callback or its
    `load` returns true. Test-load mode stops every opened file before the
    descriptor lookup.
   */
  lemma DecisionChain(e: Entry, testLoad: bool)
    ensures var v := Decide(e, testLoad);
      && (v.Accepted? <==>
            IsCandidate(e.name) && e.opens && !testLoad && e.symbol.Some? && e.symbol.value.load != Returns(false))
      && (v.Filtered? <==> !IsCandidate(e.name))
      && (v.OpenFailed? <==> IsCandidate(e.name) && !e.opens)
      && (v.TestLoaded? <==> IsCandidate(e.name) && e.opens && testLoad)
      && (v.MissingSymbol? <==> IsCandidate(e.name) && e.opens && !testLoad && e.symbol.None?)
      && (v.LoadRejected? <==>
            IsCandidate(e.name) && e.opens && !testLoad && e.symbol.Some? && e.symbol.value.load == Returns(false))
  {
  }

  /** What the walk does to the outside world, in order. */
  datatype Event =
    | Open(file: string)
    | Resolve(file: string)
    | CallLoad(file: string)
    | Close(file: string)
    | Register(file: string)
    | CallInit(plugin: nat)

  /** The events the walk produces for one entry of directory `dir`. */
  function EntryEvents(dir: string, e: Entry, testLoad: bool): (r: seq<Event>)
    ensures forall k :: 0 <= k < |r| ==> !r[k].CallInit?
    ensures testLoad ==> forall k :: 0 <= k < |r| ==> r[k].Open? || r[k].Close?
  {
    var f := BuildFilename(dir, e.name);
    match Decide(e, testLoad)
    case Filtered => []
    case OpenFailed => [Open(f)]
    case TestLoaded => [Open(f), Close(f)]
    case MissingSymbol => [Open(f), Resolve(f), Close(f)]
    case LoadRejected => [Open(f), Resolve(f), CallLoad(f), Close(f)]
    case Accepted(d) =>
      if d.load.Returns? then [Open(f), Resolve(f), CallLoad(f), Register(f)]
      else [Open(f), Resolve(f), Register(f)]
  }

  /**
    Handle ownership: an entry's events end with `Register` exactly when the
    decision chain accepts it, and every handle that was opened is either
    closed or handed to the registry, never both, never neither.
   */
  lemma HandleClosedOrRegistered(dir: string, e: Entry, testLoad: bool)
    ensures var r := EntryEvents(dir, e, testLoad);
      && (forall k :: 0 <= k < |r| - 1 ==> !r[k].Close? && !r[k].Register?)
      && (r != [] && r[|r| - 1].Register? <==> Decide(e, testLoad).Accepted?)
      && (r != [] && r[|r| - 1].Close? ==> IsCandidate(e.name) && e.opens)
      && (IsCandidate(e.name) && e.opens ==> (r[|r| - 1].Close? <==> !r[|r| - 1].Register?))
  {
    var r := EntryEvents(dir, e, testLoad);
    match Decide(e, testLoad)
    case Accepted(_) => assert r[|r| - 1].Register?;
    case _ =>
  }

  /**
    The order of one entry's events: the open attempt comes first and only
    once, and `load` is called at most once, exactly when the file opened,
    the descriptor resolved and it has a `load` callback, and then only
    right after the descriptor lookup.
   */
  lemma EntryEventsOrder(dir: string, e: Entry, testLoad: bool)
    ensures var r := EntryEvents(dir, e, testLoad);
      && (r == [] <==> !IsCandidate(e.name))
      && (forall k :: 0 <= k < |r| ==> r[k].file == BuildFilename(dir, e.name))
      && (r != [] ==> r[0] == Open(BuildFilename(dir, e.name)))
      && (forall k :: 0 < k < |r| ==> !r[k].Open?)
      && (forall k :: 0 <= k < |r| && r[k].CallLoad? ==>
            k == 2 && r[1].Resolve? && e.opens && e.symbol.Some? && e.symbol.value.load.Returns?)
      && (IsCandidate(e.name) && e.opens && !testLoad && e.symbol.Some? && e.symbol.value.load.Returns? ==>
            |r| > 2 && r[2].CallLoad?)
  {
    match Decide(e, testLoad)
    case _ =>
  }
}

=== FILE: monitor.dfy ===
/**
  `monitor_server_state`: the SIGUSR1 dump of the registry, rendered as a
  sequence of log lines in four sections. Each `%p` becomes the opaque
  `Ptr` it prints, and the per-plugin modem dump, whose internals are not
  part of this model, becomes one `ModemDump` line.
 */
module Monitor {
  import opened Optional
  import opened Registry

  datatype Section = Plugins | Storages | Communicators | Modems

  /** The header line that opens each section. */
  function Title(section: Section): string
  {
    match section
    case Plugins => "-- Plugins --"
    case Storages => "-- Storages --"
    case Communicators => "-- Communicators --"
    case Modems => "-- Modems --"
  }

  /** One log line of the dump; `Text` gives the text each shape is logged as. */
  datatype Line =
    | Header(section: Section)
    | Name(name: string)
    | File(path: Option<string>)
    | Addr(ptr: Ptr)
    | ParentPlugin(ptr: Ptr)
    | UserData(ptr: Ptr)
    | Blank
    | ModemDump(plugin: Ptr)

  /**
    The text a line is logged as. `pointer` renders a `%p` value, whose form
    the C library chooses. A modem line has no text here: it is whatever
    `tcore_server_print_modems` logs.
   */
  function Text(l: Line, pointer: Ptr -> string): Option<string>
  {
    match l
    case Header(section) => Some(Title(section))
    case Name(name) => Some("Name: [" + name + "]")
    case File(path) => Some(" - file: " + (if path.Some? then path.value else "(null)"))
    case Addr(ptr) => Some(" - addr: " + pointer(ptr))
    case ParentPlugin(ptr) => Some(" - parent_plugin: " + pointer(ptr))
    case UserData(ptr) => Some(" - userdata: " + pointer(ptr))
    case Blank => Some("")
    case ModemDump(_) => None
  }

  /**
    A logged line reads as a section's header exactly when it is that
    header: no entry line and no other header has the same text, whatever
    the names, paths and addresses in the registry.
   */
  lemma HeaderTextIdentifiesSection(l: Line, section: Section, pointer: Ptr -> string)
    ensures Text(l, pointer) == Some(Title(section)) <==> l == Header(section)
  {
    var title := Title(section);
    assert |title| > 0 && title[0] == '-';
    match l
    case Header(other) =>
    case Name(name) =>
      assert ("Name: [" + name + "]")[0] == 'N';
    case File(path) =>
      assert (" - file: " + (if path.Some? then path.value else "(null)"))[0] == ' ';
    case Addr(ptr) =>
      assert (" - addr: " + pointer(ptr))[0] == ' ';
    case ParentPlugin(ptr) =>
      assert (" - parent_plugin: " + pointer(ptr))[0] == ' ';
    case UserData(ptr) =>
      assert (" - userdata: " + pointer(ptr))[0] == ' ';
    case Blank =>
    case ModemDump(_) =>
  }

  /**
    The lines logged, and whether the walk dereferenced NULL: a dump that
    crashed stops at the line before the fault.
   */
  datatype Dump = Dump(lines: seq<Line>, crashed: bool)

  /** A plugin entry whose name can be read: the record and its descriptor are both non-NULL. */
  predicate Printable(p: Option<Plugin>)
  {
    p.Some? && p.value.desc.Some?
  }

  /** Every entry of the plugin list is printable. */
  predicate AllPrintable(ps: seq<Option<Plugin>>)
  {
    forall i :: 0 <= i < |ps| ==> Printable(ps[i])
  }

  /** The five lines logged for one plugin record. */
  function PluginBlock(p: Plugin): seq<Line>
    requires p.desc.Some?
  {
    [Name(p.desc.value.name), File(p.filename), Addr(At(p.id)), UserData(p.userData), Blank]
  }

  /** How many records at the head of the plugin list are printable: the dump faults on the next one, if any. */
  function PrintableRun(ps: seq<Option<Plugin>>): (n: nat)
    ensures n <= |ps|
    ensures forall k :: 0 <= k < n ==> Printable(ps[k])
    ensures n < |ps| ==> !Printable(ps[n])
  {
    if |ps| == 0 || !Printable(ps[0]) then 0
    else
      assert forall k :: 1 <= k < |ps| ==> ps[k] == ps[1..][k - 1];
      1 + PrintableRun(ps[1..])
  }

  /**
    The body of the Plugins section. Records are read in list order, five
    lines each; the first record that is NULL or has no descriptor faults
    on the name lookup, before anything is logged for it.
   */
  function PluginEntries(ps: seq<Option<Plugin>>): (r: Dump)
    ensures |r.lines| == 5 * PrintableRun(ps)
    ensures forall k :: 0 <= k < PrintableRun(ps) ==> r.lines[5 * k .. 5 * k + 5] == PluginBlock(ps[k].value)
    ensures r.crashed <==> PrintableRun(ps) < |ps|
    ensures r.crashed <==> !AllPrintable(ps)
    ensures forall j :: 0 <= j < |r.lines| ==> !r.lines[j].Header?
  {
    if |ps| == 0 then Dump([], false)
    else if !Printable(ps[0]) then Dump([], true)
    else
      var rest := PluginEntries(ps[1..]);
      var lines := PluginBlock(ps[0].value) + rest.lines;
      assert forall k :: 1 <= k < |ps| ==> ps[k] == ps[1..][k - 1];
      assert forall k :: 1 <= k <= PrintableRun(ps[1..]) ==> lines[5 * k .. 5 * k + 5] == rest.lines[5 * (k - 1) .. 5 * (k - 1) + 5];
      Dump(lines, rest.crashed)
  }

  /** The three lines logged for one storage. */
  function StorageBlock(st: Storage): seq<Line>
  {
    [Name(st.name), Addr(At(st.id)), Blank]
  }

  /** The body of the Storages section: three lines per storage, in list order. */
  function StorageEntries(ss: seq<Storage>): (r: seq<Line>)
    ensures |r| == 3 * |ss|
    ensures forall k :: 0 <= k < |ss| ==> r[3 * k .. 3 * k + 3] == StorageBlock(ss[k])
    ensures forall j :: 0 <= j < |r| ==> !r[j].Header?
  {
    if |ss| == 0 then []
    else
      var rest := StorageEntries(ss[1..]);
      var lines := StorageBlock(ss[0]) + rest;
      assert forall k :: 1 <= k < |ss| ==> lines[3 * k .. 3 * k + 3] == rest[3 * (k - 1) .. 3 * (k - 1) + 3];
      assert forall k :: 1 <= k < |ss| ==> ss[k] == ss[1..][k - 1];
      lines
  }

  /** The five lines logged for one communicator. */
  function CommunicatorBlock(c: Communicator): seq<Line>
  {
    [Name(c.name), Addr(At(c.id)), ParentPlugin(c.plugin), UserData(c.userData), Blank]
  }

  /** The body of the Communicators section: five lines per communicator, in list order. */
  function CommunicatorEntries(cs: seq<Communicator>): (r: seq<Line>)
    ensures |r| == 5 * |cs|
    ensures forall k :: 0 <= k < |cs| ==> r[5 * k .. 5 * k + 5] == CommunicatorBlock(cs[k])
    ensures forall j :: 0 <= j < |r| ==> !r[j].Header?
  {
    if |cs| == 0 then []
    else
      var rest := CommunicatorEntries(cs[1..]);
      var lines := CommunicatorBlock(cs[0]) + rest;
      assert forall k :: 1 <= k < |cs| ==> lines[5 * k .. 5 * k + 5] == rest[5 * (k - 1) .. 5 * (k - 1) + 5];
      assert forall k :: 1 <= k < |cs| ==> cs[k] == cs[1..][k - 1];
      lines
  }

  /** The positions of the non-NULL entries of the plugin list, in list order. */
  function NonNullPlugins(ps: seq<Option<Plugin>>): (r: seq<nat>)
    ensures forall k :: 0 <= k < |r| ==> r[k] < |ps| && ps[r[k]].Some?
    ensures forall i :: 0 <= i < |ps| && ps[i].Some? ==> i in r
    ensures forall k, l :: 0 <= k < l < |r| ==> r[k] < r[l]
  {
    if |ps| == 0 then []
    else
      var prior := NonNullPlugins(ps[..|ps| - 1]);
      assert forall i :: 0 <= i < |ps| - 1 ==> ps[..|ps| - 1][i] == ps[i];
      if ps[|ps| - 1].Some? then prior + [|ps| - 1] else prior
  }

  /** The body of the Modems section: one modem dump per non-NULL plugin entry, in list order. */
  function ModemEntries(ps: seq<Option<Plugin>>): (r: seq<Line>)
    ensures |r| == |NonNullPlugins(ps)|
    ensures forall k :: 0 <= k < |r| ==> r[k] == ModemDump(At(ps[NonNullPlugins(ps)[k]].value.id))
  {
    if |ps| == 0 then []
    else
      var prior := ModemEntries(ps[..|ps| - 1]);
      assert NonNullPlugins(ps) == NonNullPlugins(ps[..|ps| - 1]) + (if ps[|ps| - 1].Some? then [|ps| - 1] else []);
      assert forall i :: 0 <= i < |ps| - 1 ==> ps[..|ps| - 1][i] == ps[i];
      match ps[|ps| - 1]
      case None => prior
      case Some(p) => prior + [ModemDump(At(p.id))]
  }

  /** A section as logged: its header first, and no other header after it. */
  predicate IsSection(lines: seq<Line>, section: Section)
  {
    |lines| > 0 && lines[0] == Header(section) && forall j :: 0 < j < |lines| ==> !lines[j].Header?
  }

  /** `_monitor_plugin`: the Plugins header, then the plugin records up to the first one that faults. */
  function MonitorPlugins(s: Server): (r: Dump)
    ensures IsSection(r.lines, Plugins)
    ensures r.crashed <==> !AllPrintable(s.plugins)
    ensures !r.crashed ==> |r.lines| == 1 + 5 * |s.plugins|
  {
    var body := PluginEntries(s.plugins);
    Dump([Header(Plugins)] + body.lines, body.crashed)
  }

  /** `_monitor_storage`: the Storages header, then every storage. */
  function MonitorStorages(s: Server): (r: seq<Line>)
    ensures IsSection(r, Storages) && |r| == 1 + 3 * |s.storages|
  {
    [Header(Storages)] + StorageEntries(s.storages)
  }

  /** `_monitor_communicator`: the Communicators header, then every communicator. */
  function MonitorCommunicators(s: Server): (r: seq<Line>)
    ensures IsSection(r, Communicators) && |r| == 1 + 5 * |s.communicators|
  {
    [Header(Communicators)] + CommunicatorEntries(s.communicators)
  }

  /** `_monitor_modems`: the Modems header, then one modem dump per non-NULL plugin entry. */
  function MonitorModems(s: Server): (r: seq<Line>)
    ensures IsSection(r, Modems) && |r| == 1 + |NonNullPlugins(s.plugins)|
  {
    [Header(Modems)] + ModemEntries(s.plugins)
  }

  /** Four sections logged one after another: their headers sit exactly at the section boundaries. */
  lemma SectionsInOrder(a: seq<Line>, b: seq<Line>, c: seq<Line>, d: seq<Line>)
    requires IsSection(a, Plugins) && IsSection(b, Storages) && IsSection(c, Communicators) && IsSection(d, Modems)
    ensures var lines := a + b + c + d;
      && lines[0] == Header(Plugins)
      && lines[|a|] == Header(Storages)
      && lines[|a| + |b|] == Header(Communicators)
      && lines[|a| + |b| + |c|] == Header(Modems)
      && forall j :: 0 <= j < |lines| && lines[j].Header? ==>
           j == 0 || j == |a| || j == |a| + |b| || j == |a| + |b| + |c|
  {
    var lines := a + b + c + d;
    forall j | 0 <= j < |lines| && lines[j].Header?
      ensures j == 0 || j == |a| || j == |a| + |b| || j == |a| + |b| + |c|
    {
      if j < |a| {
        assert lines[j] == a[j];
      } else if j < |a| + |b| {
        assert lines[j] == b[j - |a|];
      } else if j < |a| + |b| + |c| {
        assert lines[j] == c[j - |a| - |b|];
      } else {
        assert lines[j] == d[j - |a| - |b| - |c|];
      }
    }
  }

  /**
    The whole dump: Plugins, Storages, Communicators, Modems, in that order,
    each section opened by its header even when its list is empty. A fault
    in the Plugins section ends the dump there.
   */
  function ServerState(s: Server): (r: Dump)
    ensures r.crashed <==> !AllPrintable(s.plugins)
    ensures r.crashed ==> IsSection(r.lines, Plugins)
    ensures !r.crashed ==>
              var np, ns, nc := |s.plugins|, |s.storages|, |s.communicators|;
              && |r.lines| == 4 + 5 * np + 3 * ns + 5 * nc + |NonNullPlugins(s.plugins)|
              && r.lines[0] == Header(Plugins)
              && r.lines[1 + 5 * np] == Header(Storages)
              && r.lines[2 + 5 * np + 3 * ns] == Header(Communicators)
              && r.lines[3 + 5 * np + 3 * ns + 5 * nc] == Header(Modems)
              && forall j :: 0 <= j < |r.lines| && r.lines[j].Header? ==>
                   j == 0 || j == 1 + 5 * np || j == 2 + 5 * np + 3 * ns || j == 3 + 5 * np + 3 * ns + 5 * nc
  {
    var plugins := MonitorPlugins(s);
    if plugins.crashed then plugins
    else
      var storages, communicators, modems := MonitorStorages(s), MonitorCommunicators(s), MonitorModems(s);
      SectionsInOrder(plugins.lines, storages, communicators, modems);
      Dump(plugins.lines + storages + communicators + modems, false)
  }

  /** With nothing registered, the dump is the four section headers and nothing else. */
  lemma EmptyRegistryDump()
    ensures ServerState(EmptyServer) == Dump([Header(Plugins), Header(Storages), Header(Communicators), Header(Modems)], false)
  {
  }
}

=== FILE: optional.dfy ===
/** A value that may be absent: the model's stand-in for a nullable C pointer. */
module Optional {

  datatype Option<+T> = None | Some(value: T)
}

=== FILE: registry.dfy ===
/**
  The runtime registry (the "server") as the startup and introspection code
  sees it: ordered collections of plugin records, storages and communicators.
  The registry's own storage is not modelled; the core only appends plugin
  records to it and reads the collections back. Addresses are opaque
  identities.
 */
module Registry {
  import opened Optional

  /** An address the daemon prints with `%p`: NULL or the identity of an object. */
  datatype Ptr = Null | At(id: nat)

  /** The optional `load` callback of a module descriptor, with the value it returns when called. */
  datatype Hook = Absent | Returns(ok: bool)

  /**
    What a module's `init` does to the registry through the record and
    server it can reach: the user data it links to its own record, if any,
    and the storages and communicators it registers, in order.
   */
  datatype InitEffect = InitEffect(userData: Option<Ptr>, storages: seq<Storage>, communicators: seq<Communicator>)

  /** The effect of an `init` that touches nothing. */
  const NoEffect: InitEffect := InitEffect(None, [], [])

  /** The optional `init` callback of a module descriptor: the value it returns and what it does to the registry. */
  datatype InitHook = NoInit | Init(ok: bool, effect: InitEffect)

  /**
    The descriptor a module exports under the symbol `plugin_define_desc`.
    `version` and `priority` are carried for completeness; no code of the
    core reads them.
   */
  datatype Descriptor = Descriptor(name: string, version: int, priority: int, load: Hook, init: InitHook)

  /**
    A plugin record. The list that holds it may contain NULL, and a record's
    descriptor and filename may be NULL: the code that walks the list guards
    against the first two in some places and not in others.
   */
  datatype Plugin = Plugin(id: nat, desc: Option<Descriptor>, filename: Option<string>, userData: Ptr)

  datatype Storage = Storage(id: nat, name: string)

  datatype Communicator = Communicator(id: nat, name: string, plugin: Ptr, userData: Ptr)

  /** A snapshot of the registry's collections, each in insertion order. */
  datatype Server = Server(plugins: seq<Option<Plugin>>, storages: seq<Storage>, communicators: seq<Communicator>)

  /** The registry as a freshly created server holds it. */
  const EmptyServer: Server := Server([], [], [])

  /** Plugin identities follow allocation order: the record at position `i` has identity `i`. */
  predicate IdsArePositions(plugins: seq<Option<Plugin>>)
  {
    forall i :: 0 <= i < |plugins| && plugins[i].Some? ==> plugins[i].value.id == i
  }

  predicate WellFormed(s: Server)
  {
    IdsArePositions(s.plugins)
  }

  /**
    The record `tcore_plugin_new` creates for a freshly loaded module: the
    descriptor and path it was loaded with, no user data, and an identity
    no record of a well-formed registry has.
   */
  function NewPlugin(s: Server, desc: Descriptor, filename: string): (p: Plugin)
    ensures WellFormed(s) ==> forall i :: 0 <= i < |s.plugins| && s.plugins[i].Some? ==> s.plugins[i].value.id != p.id
  {
    Plugin(|s.plugins|, Some(desc), Some(filename), Null)
  }

  /** Appends a record to the plugin list; nothing else in the registry changes. */
  function AddPlugin(s: Server, p: Plugin): (r: Server)
    ensures |r.plugins| == |s.plugins| + 1 && r.plugins[..|s.plugins|] == s.plugins && r.plugins[|s.plugins|] == Some(p)
    ensures r.storages == s.storages && r.communicators == s.communicators
  {
    s.(plugins := s.plugins + [Some(p)])
  }

  /** Appending the record `tcore_plugin_new` creates keeps a well-formed registry well-formed. */
  lemma AddNewPluginKeepsWellFormed(s: Server, desc: Descriptor, filename: string)
    requires WellFormed(s)
    ensures WellFormed(AddPlugin(s, NewPlugin(s, desc, filename)))
  {
  }

  /** Links user data to the record at position `i` (`tcore_plugin_link_user_data`); nothing else changes. */
  function LinkUserData(s: Server, i: nat, u: Ptr): (r: Server)
    requires i < |s.plugins| && s.plugins[i].Some?
    ensures |r.plugins| == |s.plugins| && r.plugins[i] == Some(s.plugins[i].value.(userData := u))
    ensures forall j :: 0 <= j < |s.plugins| && j != i ==> r.plugins[j] == s.plugins[j]
    ensures r.storages == s.storages && r.communicators == s.communicators
    ensures WellFormed(s) ==> WellFormed(r)
  {
    s.(plugins := s.plugins[i := Some(s.plugins[i].value.(userData := u))])
  }

  /** Registers storages and communicators at the end of their lists; the plugin list does not change. */
  function AddObjects(s: Server, storages: seq<Storage>, communicators: seq<Communicator>): (r: Server)
    ensures r.plugins == s.plugins
    ensures |r.storages| == |s.storages| + |storages| && |r.communicators| == |s.communicators| + |communicators|
    ensures r.storages[..|s.storages|] == s.storages && r.storages[|s.storages|..] == storages
    ensures r.communicators[..|s.communicators|] == s.communicators && r.communicators[|s.communicators|..] == communicators
  {
    s.(storages := s.storages + storages, communicators := s.communicators + communicators)
  }
}

=== FILE: scenario.dfy ===
/**
  A worked directory: a module whose `load` and `init` succeed, one whose
  `load` refuses, a file without the module suffix and one of the daemon's
  own libraries, walked once normally and once in test-load mode.
 */
module Scenario {
  import opened Optional
  import opened Registry
  import opened Loader
  import opened Discovery
  import opened Sequences

  const ModA := Descriptor("modA", 1, 0, Returns(true), Init(true, NoEffect))
  const ModB := Descriptor("modB", 1, 0, Returns(false), NoInit)

  const Sample: seq<Entry> :=
    [Entry("modA.so", true, Some(ModA)), Entry("modB.so", true, Some(ModB)),
     Entry("readme.txt", true, None), Entry("libcore.so", true, Some(ModA))]

  /** Where each entry leaves the decision chain. */
  lemma SampleVerdicts()
    ensures Decide(Sample[0], false) == Accepted(ModA) && Decide(Sample[1], false) == LoadRejected
    ensures Decide(Sample[0], true) == TestLoaded && Decide(Sample[1], true) == TestLoaded
    ensures forall t :: Decide(Sample[2], t) == Filtered && Decide(Sample[3], t) == Filtered
  {
    assert "modA.so"[4..] == ".so" && "modA.so"[..3] == "mod";
    assert "modB.so"[4..] == ".so" && "modB.so"[..3] == "mod";
    assert "readme.txt"[7..] == "txt";
    assert "libcore.so"[..3] == "lib";
  }

  /** Only the first entry is accepted. */
  lemma SampleAccepted()
    ensures AcceptedIndices(Sample, false) == [0]
  {
    SampleVerdicts();
    var r := AcceptedIndices(Sample, false);
    assert 0 in r;
    forall k | 0 <= k < |r|
      ensures r[k] == 0
    {
      assert r[k] < 4 && Decide(Sample[r[k]], false).Accepted?;
    }
    IncreasingBelow(r, 1);
  }

  /** Each entry's own events in a normal walk. */
  lemma SampleEntryEventsRun(dir: string)
    ensures var a, b := BuildFilename(dir, "modA.so"), BuildFilename(dir, "modB.so");
      && EntryEvents(dir, Sample[0], false) == [Open(a), Resolve(a), CallLoad(a), Register(a)]
      && EntryEvents(dir, Sample[1], false) == [Open(b), Resolve(b), CallLoad(b), Close(b)]
      && EntryEvents(dir, Sample[2], false) == [] && EntryEvents(dir, Sample[3], false) == []
  {
    SampleVerdicts();
  }

  /** The events of a normal walk over the two modules. */
  lemma SampleModulesRun(dir: string)
    ensures var a, b := BuildFilename(dir, "modA.so"), BuildFilename(dir, "modB.so");
      WalkEvents(dir, Sample[..2], false) ==
        [Open(a), Resolve(a), CallLoad(a), Register(a), Open(b), Resolve(b), CallLoad(b), Close(b)]
  {
    SampleEntryEventsRun(dir);
    WalkEventsSnoc(dir, Sample, 0, false);
    WalkEventsSnoc(dir, Sample, 1, false);
  }

  /** The events of a normal walk, entry by entry. */
  lemma SampleEventsRun(dir: string)
    ensures var a, b := BuildFilename(dir, "modA.so"), BuildFilename(dir, "modB.so");
      WalkEvents(dir, Sample, false) ==
        [Open(a), Resolve(a), CallLoad(a), Register(a), Open(b), Resolve(b), CallLoad(b), Close(b)]
  {
    SampleEntryEventsRun(dir);
    SampleModulesRun(dir);
    WalkEventsSnoc(dir, Sample, 2, false);
    WalkEventsSnoc(dir, Sample, 3, false);
    assert Sample[..4] == Sample;
  }

  /** Each entry's own events in a test-load walk. */
  lemma SampleEntryEventsTest(dir: string)
    ensures var a, b := BuildFilename(dir, "modA.so"), BuildFilename(dir, "modB.so");
      && EntryEvents(dir, Sample[0], true) == [Open(a), Close(a)]
      && EntryEvents(dir, Sample[1], true) == [Open(b), Close(b)]
      && EntryEvents(dir, Sample[2], true) == [] && EntryEvents(dir, Sample[3], true) == []
  {
    SampleVerdicts();
  }

  /** The events of a test-load walk, entry by entry. */
  lemma SampleEventsTest(dir: string)
    ensures var a, b := BuildFilename(dir, "modA.so"), BuildFilename(dir, "modB.so");
      WalkEvents(dir, Sample, true) == [Open(a), Close(a), Open(b), Close(b)]
  {
    SampleEntryEventsTest(dir);
    WalkEventsSnoc(dir, Sample, 0, true);
    WalkEventsSnoc(dir, Sample, 1, true);
    WalkEventsSnoc(dir, Sample, 2, true);
    WalkEventsSnoc(dir, Sample, 3, true);
    assert Sample[..4] == Sample;
  }

  /**
    Walked normally, the directory registers one record, for the first
    module, and opens both modules; walked in test-load mode it opens and
    closes both modules and registers nothing.
   */
  lemma SampleDirectory(dir: string)
    ensures Registrations(dir, Sample, false, 0) == [Some(Plugin(0, Some(ModA), Some(BuildFilename(dir, "modA.so")), Null))]
    ensures Registrations(dir, Sample, true, 0) == []
    ensures var a, b := BuildFilename(dir, "modA.so"), BuildFilename(dir, "modB.so");
      && WalkEvents(dir, Sample, false) == [Open(a), Resolve(a), CallLoad(a), Register(a), Open(b), Resolve(b), CallLoad(b), Close(b)]
      && WalkEvents(dir, Sample, true) == [Open(a), Close(a), Open(b), Close(b)]
  {
    SampleAccepted();
    TestLoadRegistersNothing(dir, Sample, 0);
    SampleEventsRun(dir);
    SampleEventsTest(dir);
  }
}

=== FILE: sequences.dfy ===
/** Small facts about sequences shared by the loader and monitor models. */
module Sequences {

  /** The number of occurrences of `x` in `s`. */
  function CountOf<T(==)>(s: seq<T>, x: T): (n: nat)
    ensures n <= |s|
    ensures n == 0 <==> x !in s
  {
    if |s| == 0 then 0
    else CountOf(s[..|s| - 1], x) + (if s[|s| - 1] == x then 1 else 0)
  }

  /** Counting distributes over concatenation. */
  lemma {:induction false} CountOfAppend<T>(a: seq<T>, b: seq<T>, x: T)
    ensures CountOf(a + b, x) == CountOf(a, x) + CountOf(b, x)
    decreases |b|
  {
    if |b| == 0 {
      assert a + b == a;
    } else {
      var b' := b[..|b| - 1];
      assert (a + b)[..|a + b| - 1] == a + b';
      CountOfAppend(a, b', x);
    }
  }

  lemma AppendAssoc<T>(a: seq<T>, b: seq<T>, c: seq<T>)
    ensures (a + b) + c == a + (b + c)
  {
  }

  /** Appending to a sequence that extends `start` by `prior` extends `start` by `prior` followed by what was appended. */
  lemma AppendStep<T>(start: seq<T>, prior: seq<T>, own: seq<T>, next: seq<T>, before: seq<T>, after: seq<T>)
    requires before == start + prior && after == before + own && next == prior + own
    ensures after == start + next
  {
    AppendAssoc(start, prior, own);
  }

  /** A strictly increasing sequence of naturals below `n` has at most `n` elements. */
  lemma {:induction false} IncreasingBelow(r: seq<nat>, n: nat)
    requires forall k, l :: 0 <= k < l < |r| ==> r[k] < r[l]
    requires forall k :: 0 <= k < |r| ==> r[k] < n
    ensures |r| <= n
  {
    if |r| > 0 {
      var prefix := r[..|r| - 1];
      assert forall k :: 0 <= k < |prefix| ==> prefix[k] == r[k] && r[k] < r[|r| - 1];
      IncreasingBelow(prefix, r[|r| - 1]);
    }
  }
}
